=== FILE: README.md ===
# Faerun city dashboard — a verified model of its data logic

The dashboard shows a small table of city records and draws a bar, a radar and
a scatter chart from them. Two pieces of it are plain sequential logic, and
this project models and proves them in Dafny:

* **Dashboard logic** (`cities-chart/faerun_dashboard_logic.js`). It
  max-scales the ten metrics of every city to 0–100 and computes the composite
  "Unified Index", their mean. It keeps a sort state (key and direction) driven
  by header clicks, and sorts the enriched records with the comparator of
  `updateCharts`. From the sorted list it derives three things: the table rows
  with 1-based ranks and empty cells for null/undefined values, the bar series
  over the top `n`, and the radar series over the top `m` with hues spread over
  the colour wheel.
* **Pin-buffer radar** (`cities-chart/radar_chart_debug_only.js`). This is a
  bounded, order-preserving list of pinned cities with toggle semantics and
  FIFO eviction, plus a "selected" marker per pinned row. After every toggle
  the chart gets one series per pinned city, coloured from a six-colour palette
  by position.

Modules, one per concern:

| file | module | contents |
|---|---|---|
| `wrappers.dfy` | `Wrappers` | `Option` |
| `metrics.dfy` | `Metrics` | metric keys, labels, `colKeyMap`, the city record, `v || 0` |
| `enrich.dfy` | `Enrichment` | per-metric maxima, scaling, index |
| `sort_control.dfy` | `SortControl` | `currentSort` and the header-click transition |
| `ordering.dfy` | `Ordering` | the comparator and a stable insertion sort |
| `views.dfy` | `Views` | slicing, `Math.round`/`toFixed`, bar/radar series, table cells, `updateCharts` |
| `radar_pins.dfy` | `RadarPins` | pin buffer, toggle, palette, series, redraw |

How the model reads the JavaScript:

* Arithmetic is on exact `real`s. A metric that is null or undefined is a key
  absent from the record's `metrics` map. `d[k]||0` is `OrZero`, and `d[k]`
  read as-is is `Raw`.
* The code has no guard against a metric whose maximum is 0; the division then
  yields NaN or -Infinity. The model carries this as `Score.NonFinite`. It proves
  that a zero maximum makes every record's index non-finite
  (`ZeroMaxIsNonFinite`), and that the index is finite for every record or
  for none (`IndexFinitenessIsUniform`). The index comparator then returns NaN for every
  pair, which ECMAScript's sort counts as a tie, so the order is left as it is.
  A zero maximum does not yield a score of 0: no such guard exists in the code.
* Sorting by `index` compares `b.index - a.index` and ignores `direction`.
* `slice(0, n)` with a negative `n` keeps all but the last `|n|` entries. It
  does not give an empty chart.
* `Math.round(i * 360 / m)` can reach 360, which is the same colour as hue 0.
  Series i gets hue 360 when `i * 360 / m >= 359.5`. That needs `m >= 720`
  and at least 720 shown entries, since `i` runs only over `slice(0, m)`
  (`HueReaches360Late`, `HueWrapsAt720`). So the hue range is [0, 360], not [0, 360).
* `toFixed(0)` and `toFixed(1)` are modelled as rounding to the nearest whole
  number or tenth, with halves away from zero, on exact reals.
* A table row is identified by its city's name, so the "selected" markers are
  a set of names.
* The capacity is `parseInt(...) || Infinity`, taken from an already-parsed
  `Option<int>`. NaN and 0 mean unbounded, and a negative value is kept. A new
  city meeting an empty buffer under a negative capacity makes `shift()`
  return `undefined`, and reading `.row` of it throws. `Toggle` returns
  `Crashed` for that click. The throw aborts only that handler call, and
  `shift()` on an empty buffer changed nothing, so `Handle` keeps the pins
  as they were and a `Run` of clicks carries on with the next one.

## Model

| member | source | states |
|---|---|---|
| Metrics.KeyIndex | cities-chart/faerun_dashboard_logic.js:4 | every metric key has a position in the fixed key order, and that position holds the key |
| Metrics.KeysAreDistinct | cities-chart/faerun_dashboard_logic.js:4 | the ten keys are pairwise distinct, so a position determines its key and back |
| Metrics.RadarMetricsAreKeys | cities-chart/radar_chart_debug_only.js:2 | the pin radar lists the metrics in the same order as the dashboard |
| Metrics.Label | cities-chart/faerun_dashboard_logic.js:5-6 | a metric's label is the entry of `labels` at the key's position |
| Metrics.ColKey | cities-chart/faerun_dashboard_logic.js:31-35 | a column has a sort key exactly when it is 2..11, and column c sorts by the (c-2)-th key |
| Metrics.EveryKeyHasOneColumn | cities-chart/faerun_dashboard_logic.js:31-35 | each metric is sorted by exactly one header column |
| Enrichment.Max | cities-chart/faerun_dashboard_logic.js:10 | `Math.max` of a non-empty list bounds every element and is one of them |
| Enrichment.ColumnMax | cities-chart/faerun_dashboard_logic.js:10 | a metric's maximum bounds every record's `d[k]||0` and is attained by one record |
| Enrichment.Total | cities-chart/faerun_dashboard_logic.js:13 | the left-fold sum is finite exactly when every term is, and then equals the plain sum |
| Enrichment.Mean | cities-chart/faerun_dashboard_logic.js:13 | the mean is finite exactly when every term is, and length times mean is the sum |
| Enrichment.Enrich | cities-chart/faerun_dashboard_logic.js:11-15 | one entry per record, in input order, carrying its record, its name and ten scaled values |
| Enrichment.Normalise | cities-chart/faerun_dashboard_logic.js:12 | one scaled value `(x/max)*100`, with no guard for a zero maximum; its behaviour is stated by NormFollowsKeys, NormInRange, MissingMetricCountsAsZero and ZeroMaxIsNonFinite |
| Enrichment.NormFollowsKeys | cities-chart/faerun_dashboard_logic.js:12 | scaled value j of a record is its metric `keys[j]` (missing as 0) over that metric's maximum |
| Enrichment.MissingMetricCountsAsZero | cities-chart/faerun_dashboard_logic.js:10-12 | a missing metric counts as 0 in the maximum and scales to 0 |
| Enrichment.ZeroMaxMeansZeroColumn | cities-chart/faerun_dashboard_logic.js:10 | with non-negative data a maximum is 0 exactly when every record reads 0 there |
| Enrichment.NormInRange | cities-chart/faerun_dashboard_logic.js:10-12 | with non-negative data and a positive maximum a scaled value is in [0, 100], and the record at the maximum scores 100 |
| Enrichment.SomeRecordScoresHundred | cities-chart/faerun_dashboard_logic.js:10-12 | under the same conditions some record scores exactly 100 on that metric |
| Enrichment.ZeroMaxIsNonFinite | cities-chart/faerun_dashboard_logic.js:12-13 | a maximum of 0 makes that scaled value and the index non-finite for every record |
| Enrichment.IndexIsMean | cities-chart/faerun_dashboard_logic.js:13 | the index is finite exactly when no maximum is 0, and then ten times the index is the sum of the ten scaled values |
| Enrichment.IndexFinitenessIsUniform | cities-chart/faerun_dashboard_logic.js:12-13 | either every record's index is finite or none is |
| Enrichment.IndexInRange | cities-chart/faerun_dashboard_logic.js:12-13 | with non-negative data and no all-zero metric the index lies in [0, 100] |
| SortControl.Flip | cities-chart/faerun_dashboard_logic.js:154 | toggling always changes the direction |
| SortControl.Click | cities-chart/faerun_dashboard_logic.js:147-158 | a non-metric column changes nothing; a metric column becomes the key, with a toggled direction if it was active and `desc` otherwise |
| SortControl.ClickActiveTwiceRestores | cities-chart/faerun_dashboard_logic.js:152-154 | two clicks on the active column restore the state |
| SortControl.ClickOtherTwiceIsAscending | cities-chart/faerun_dashboard_logic.js:155-158 | a new column is first `desc`, and a second click makes it `asc` |
| SortControl.Clicks | cities-chart/faerun_dashboard_logic.js:147-158 | a series of header clicks applied in order; its behaviour is stated by IndexOnlyIfNeverLeft, UnmappedClicksChangeNothing and IndexStateIsInitial |
| SortControl.IndexOnlyIfNeverLeft | cities-chart/faerun_dashboard_logic.js:147-158 | after any run of clicks the key is `index` exactly when it was `index` before and no metric column was clicked |
| SortControl.UnmappedClicksChangeNothing | cities-chart/faerun_dashboard_logic.js:148-149 | clicks on columns without a key leave the state unchanged |
| SortControl.IndexStateIsInitial | cities-chart/faerun_dashboard_logic.js:38 | from the initial state, any state sorted by `index` is still `index`/`desc` |
| Ordering.Compare | cities-chart/faerun_dashboard_logic.js:72-80 | the sort comparator, `b.index - a.index` for the index and `raw[k]||0` differences for a metric in the chosen direction; its behaviour is stated by CompareIsRankDifference |
| Ordering.CompareIsRankDifference | cities-chart/faerun_dashboard_logic.js:72-80 | each metric comparator, for every pair, and the index comparator, when both indices are finite or both are not, is `rank(a) - rank(b)` and antisymmetric, so it is consistent |
| Ordering.Insert | cities-chart/faerun_dashboard_logic.js:73-80 | inserting adds exactly one copy of the entry |
| Ordering.Sort | cities-chart/faerun_dashboard_logic.js:72-81 | the result is a permutation of the input and ascends in comparator rank |
| Ordering.SortKeepsTies | cities-chart/faerun_dashboard_logic.js:72-81 | the sort is stable: entries of equal rank keep their input order |
| Ordering.StableSortIsUnique | cities-chart/faerun_dashboard_logic.js:72-81 | any rank-sorted arrangement that keeps ties in input order equals Sort's, so Sort is the stable sort |
| Ordering.IndexSortIgnoresDirection | cities-chart/faerun_dashboard_logic.js:72-73 | sorting by `index` gives the same order for `asc` and `desc` |
| Ordering.IndexSortIsDescending | cities-chart/faerun_dashboard_logic.js:73 | sorted by `index` with finite indices, the indices do not increase |
| Ordering.MetricSortDescending | cities-chart/faerun_dashboard_logic.js:75-78 | sorted by a metric `desc`, `raw[k]||0` does not increase |
| Ordering.MetricSortAscending | cities-chart/faerun_dashboard_logic.js:75-79 | sorted by a metric `asc`, `raw[k]||0` does not decrease |
| Views.ColumnLabel | cities-chart/faerun_dashboard_logic.js:6 | the `index` key's title is "Unified Index", and a metric key's chart title is its label in `labels` |
| Views.SliceEnd | cities-chart/faerun_dashboard_logic.js:88 | `slice(0, n)` keeps min(n, len) entries for n >= 0, and all but the last min(-n, len) for n < 0 |
| Views.Round | cities-chart/faerun_dashboard_logic.js:120 | `Math.round` gives the integer within (x - 1/2, x + 1/2] |
| Views.RoundHalfAway | cities-chart/faerun_dashboard_logic.js:123 | the toFixed digit rule gives an integer within 1/2 of y, with ties away from zero and the sign kept |
| Views.ToFixedError | cities-chart/faerun_dashboard_logic.js:95 | `toFixed(0)` and `toFixed(1)` move a value by at most half a unit in the last digit kept, and keep non-negative values non-negative |
| Views.ToFixedIsOdd | cities-chart/faerun_dashboard_logic.js:95 | toFixed rounding is symmetric about 0 |
| Views.ToFixedIsMonotone | cities-chart/faerun_dashboard_logic.js:95 | toFixed rounding never reverses an order |
| Views.ToFixedZeroInRange | cities-chart/faerun_dashboard_logic.js:123 | a value in [0, 100] rounded to a whole number stays in [0, 100] |
| Views.Bar | cities-chart/faerun_dashboard_logic.js:87-100 | the bar series has one bar per entry of `slice(0, n)`, with labels and values aligned to the sorted entries, titled by the key's label |
| Views.Radar | cities-chart/faerun_dashboard_logic.js:117-130 | the radar series covers `slice(0, m)`; series i carries entry i's name, its ten rounded scores and hue `round(i*360/m)` |
| Views.Hue | cities-chart/faerun_dashboard_logic.js:120 | `Math.round(i * 360 / m)`; its behaviour is stated by HueRange, HueWrapsAt720 and HuesDistinct |
| Views.HueRange | cities-chart/faerun_dashboard_logic.js:120 | for i < m the hue lies in [0, 360], and below 360 when m < 720 |
| Views.HueReaches360Late | cities-chart/faerun_dashboard_logic.js:118-120 | a series gets hue 360 only if its position is at least 719, so only when m >= 720 and at least 720 entries are shown |
| Views.HueWrapsAt720 | cities-chart/faerun_dashboard_logic.js:120 | with m = 720 the last series gets hue 360, the colour of series 0 |
| Views.HuesDistinct | cities-chart/faerun_dashboard_logic.js:120 | for m <= 360 the hues strictly increase with i |
| Views.MakeNumber | cities-chart/faerun_dashboard_logic.js:45-47 | a metric cell is empty exactly when the value is null/undefined; otherwise it shows the value |
| Views.MakeText | cities-chart/faerun_dashboard_logic.js:45-47 | a text cell is empty exactly when the field is null/undefined, and otherwise shows the field's text |
| Views.Table | cities-chart/faerun_dashboard_logic.js:41-67 | one row per sorted entry with rank i+1, its city, twelve cells; metric cell j is empty exactly when metric j is absent and otherwise shows its stored value, grouped for population and bank; the last two cells render the rationale and the stakeholder |
| Views.ZeroIsShown | cities-chart/faerun_dashboard_logic.js:45-47 | a metric stored as 0 renders as the number 0, not as an empty cell |
| Views.UpdateCharts | cities-chart/faerun_dashboard_logic.js:69-143 | the table has a row per record, ranked from 1, naming the sorted entries in order; the bars keep `slice(0, n)` and the radar series `slice(0, m)` of them, naming the same cities as the first table rows, in order |
| Views.SortedHeadIsLargest | cities-chart/faerun_dashboard_logic.js:75-78 | sorted by a metric `desc`, the first entry holds the dataset's largest `raw[k]||0` |
| Views.MetricBarsDescend | cities-chart/faerun_dashboard_logic.js:75-97 | sorted by a metric `desc`, the first bar is the dataset's largest `raw[k]||0` and the bars do not increase |
| Views.IndexBarsDescend | cities-chart/faerun_dashboard_logic.js:72-95 | sorted by a finite index in either direction, the one-decimal bars do not increase |
| Views.SortedScoresBounded | cities-chart/faerun_dashboard_logic.js:10-14 | with non-negative data and no all-zero metric, every sorted entry's ten scaled values are finite and in [0, 100] |
| Views.RadarDataInRange | cities-chart/faerun_dashboard_logic.js:118-123 | when every scaled value is in [0, 100], so is every rounded radar value |
| RadarPins.ParseCap | cities-chart/radar_chart_debug_only.js:66 | the capacity is unbounded exactly for NaN and 0; otherwise it is the parsed number |
| RadarPins.FindByName | cities-chart/radar_chart_debug_only.js:61 | the result is the first position holding the name, or -1 exactly when the name is not pinned |
| RadarPins.Toggle | cities-chart/radar_chart_debug_only.js:58-73 | one toggle; its cases are stated by ToggleWithoutRowIsNoOp, ToggleUnpins, TogglePinsBelowCap, ToggleEvictsOldest and ToggleCrashesOnlyOnNegativeCap, and its invariant by TogglePreservesValid |
| RadarPins.ToggleWithoutRowIsNoOp | cities-chart/radar_chart_debug_only.js:59-60 | a city without a row changes neither buffer nor markers |
| RadarPins.ToggleUnpins | cities-chart/radar_chart_debug_only.js:61-64 | toggling a pinned city removes exactly its entry, keeps the others in order, and clears its marker |
| RadarPins.TogglePinsBelowCap | cities-chart/radar_chart_debug_only.js:66-72 | below capacity, or unbounded, a new city is appended and marked and nothing else changes |
| RadarPins.ToggleEvictsOldest | cities-chart/radar_chart_debug_only.js:67-72 | at capacity the oldest pin is removed and unmarked before the new city is appended, so the length is unchanged |
| RadarPins.ToggleCrashesOnlyOnNegativeCap | cities-chart/radar_chart_debug_only.js:66-69 | the toggle throws exactly when a city with a row meets an empty buffer under a negative capacity |
| RadarPins.TogglePreservesValid | cities-chart/radar_chart_debug_only.js:61-72 | names stay pairwise distinct and the marked rows stay exactly the pinned ones |
| RadarPins.ToggleKeepsBound | cities-chart/radar_chart_debug_only.js:66-72 | with a fixed capacity c >= 1 the buffer never grows past c |
| RadarPins.Handle | cities-chart/radar_chart_debug_only.js:58-75 | one click's handler: a click that throws leaves the pins unchanged, a completed toggle is applied, and validity is kept |
| RadarPins.Run | cities-chart/radar_chart_debug_only.js:58-75 | a series of clicks, each handled on its own, keeps names distinct and markers equal to the pinned names |
| RadarPins.CrashedClickIsSkipped | cities-chart/radar_chart_debug_only.js:66-69 | a click that throws does not stop the later clicks, which see the same pins |
| RadarPins.RunKeepsBound | cities-chart/radar_chart_debug_only.js:66-72 | under a fixed capacity c >= 1, a series of clicks that starts within c pins never leaves more than c |
| RadarPins.LoweredCapStaysOver | cities-chart/radar_chart_debug_only.js:66-71 | when the capacity is lowered below the buffer's length, a new pin evicts only one entry, so the buffer stays above the capacity |
| RadarPins.PinThenUnpinRestores | cities-chart/radar_chart_debug_only.js:61-72 | pinning a new city without eviction and toggling it again restores buffer and markers |
| RadarPins.FillUp | cities-chart/radar_chart_debug_only.js:66-72 | pinning new distinct cities while there is room appends them in order and marks exactly the pinned names |
| RadarPins.OverflowEvictsEarliest | cities-chart/radar_chart_debug_only.js:66-71 | pinning c+1 distinct cities under capacity c leaves the last c, and unmarks the earliest |
| RadarPins.RadarColor | cities-chart/radar_chart_debug_only.js:28-38 | `getRadarColor`: palette entry `index % 6` with the given alpha; its behaviour is stated by PaletteCycles and Datasets |
| RadarPins.PaletteCycles | cities-chart/radar_chart_debug_only.js:28-38 | series colours repeat every six positions and differ within any six consecutive positions |
| RadarPins.CreateDataset | cities-chart/radar_chart_debug_only.js:40-50 | one series for a city at a buffer position; its contents are stated by Datasets |
| RadarPins.Datasets | cities-chart/radar_chart_debug_only.js:40-53 | one series per pinned city in buffer order; series i has palette colour i mod 6 for border and point and the same colour at alpha 0.2 for the background, and carries the city's ten raw metrics in key order |
| RadarPins.ToggleRadar | cities-chart/radar_chart_debug_only.js:58-75 | a toggle followed by the redraw; its behaviour is stated by ToggleRadarKeepsSync |
| RadarPins.ToggleRadarKeepsSync | cities-chart/radar_chart_debug_only.js:52-75 | the initial chart matches the empty buffer, and after every completed toggle the chart shows one series per pinned city, in order |

## Left out

- DOM access, event wiring and `innerHTML`/`classList` effects: input and output. Markers are an abstract set of names.
- RadarPins.Valid: the marker invariant covers only the toggle's own `classList` changes. Each `updateCharts` re-render rebuilds every table row without the "selected" class, and an edit of the `radarCap` field triggers one. After a re-render the page shows no markers while the buffer keeps its pins, and the model does not track that.
- RadarPins.ToggleKeepsBound: the buffer is bounded by the capacity only if it starts within it. Lowering the capacity below the buffer's length leaves the buffer above it, because each new pin evicts one entry (`LoweredCapStaysOver`). So the buffer can exceed the configured capacity.
- Chart.js construction, `update()` and the choice between creating and mutating a chart: an external library. The charts are reduced to the data they carry.
- `toLocaleString` grouping: locale-dependent. A cell records only whether it would be grouped, which is true for population and bank.
- Floating-point behaviour: reals are exact. `toFixed` and `Math.round` are exact on reals and ignore binary representation.
- Views.ToFixedError: the decimal-string output of `toFixed` is not modelled; only the number that unary `+` reads back.
- The HSL/RGBA colour strings: cosmetic. Hues are integers, and palette colours are RGB triples with an alpha.
- The radar chart's title text `Top m by ...`: number-to-string formatting.
- `updateCor` and the X/Y selectors: a map of raw values into a chart call, producing one point per city in dataset order.
- Both scripts drawing into one radar canvas, and the `window.toggleRadar` hand-off: runtime coupling between scripts. The code that sets `city.row` and calls the toggle is not part of this model.
- Parsing `+input.value` and `parseInt`: `n` and `m` are taken as integers, and the capacity as an already-parsed `Option<int>`. A fractional `n` or `m`, which `slice` truncates, is not modelled.
- Ordering.Compare: a pair with one finite and one non-finite index is treated as a tie. JavaScript would order -Infinity last. IndexFinitenessIsUniform shows the enriched data never holds such a pair.

=== FILE: enrich.dfy ===
/** Data preparation: every metric is scaled by its dataset-wide maximum to
    0-100, and the composite index is the mean of the ten scaled values.
    There is no guard against a maximum of 0; the JavaScript result is then
    NaN or -Infinity, modelled here as NonFinite. */
module Enrichment {
  import opened Metrics

  /** A number produced by the normaliser: a finite real, or NaN/-Infinity. */
  datatype Score = Finite(v: real) | NonFinite

  /** One enriched record: name, source record, ten scaled values in Keys order, index. */
  datatype Entry = Entry(city: string, raw: City, norm: seq<Score>, index: Score)

  /** `faerunCityData.map(d => d[k]||0)` */
  function Column(data: seq<City>, k: Key): seq<real>
  {
    seq(|data|, i requires 0 <= i < |data| => OrZero(data[i], k))
  }

  /** `Math.max(...s)` for a non-empty list. */
  function Max(s: seq<real>): (m: real)
    requires |s| > 0
    ensures forall i :: 0 <= i < |s| ==> s[i] <= m
    ensures exists i :: 0 <= i < |s| && s[i] == m
    decreases |s|
  {
    if |s| == 1 then s[0]
    else
      var rest := Max(s[1..]);
      if s[0] >= rest then s[0]
      else
        ghost var j :| 0 <= j < |s[1..]| && s[1..][j] == rest;
        assert s[j + 1] == rest;
        rest
  }

  /** `maxValues[KeyIndex(k)]`: the largest `d[k]||0` over the dataset. */
  function ColumnMax(data: seq<City>, k: Key): (m: real)
    requires |data| > 0
    ensures forall i :: 0 <= i < |data| ==> OrZero(data[i], k) <= m
    ensures exists i :: 0 <= i < |data| && OrZero(data[i], k) == m
  {
    var col := Column(data, k);
    var m := Max(col);
    assert forall i :: 0 <= i < |data| ==> col[i] == OrZero(data[i], k);
    m
  }

  /** `maxValues` */
  function MaxValues(data: seq<City>): (ms: seq<real>)
    requires |data| > 0
    ensures |ms| == |Keys|
    ensures forall j :: 0 <= j < |Keys| ==> ms[j] == ColumnMax(data, Keys[j])
  {
    seq(|Keys|, j requires 0 <= j < |Keys| => ColumnMax(data, Keys[j]))
  }

  /** `x / max * 100` */
  function Normalise(x: real, max: real): Score
  {
    if max == 0.0 then NonFinite else Finite(x / max * 100.0)
  }

  lemma NormaliseZero(m: real)
    requires m != 0.0
    ensures Normalise(0.0, m) == Finite(0.0)
  {
  }

  lemma NormaliseBounds(x: real, m: real)
    requires 0.0 <= x <= m && m > 0.0
    ensures Normalise(x, m).Finite? && 0.0 <= Normalise(x, m).v <= 100.0
    ensures x == m ==> Normalise(x, m).v == 100.0
  {
    assert 0.0 <= x / m <= 1.0;
  }

  /** JavaScript `a + b` on normaliser results. */
  function Add(a: Score, b: Score): Score
  {
    if a.Finite? && b.Finite? then Finite(a.v + b.v) else NonFinite
  }

  /** Sum of the finite values, as a plain right fold (a reference for Total). */
  function SumFinite(s: seq<Score>): real
  {
    if |s| == 0 then 0.0 else (if s[0].Finite? then s[0].v else 0.0) + SumFinite(s[1..])
  }

  lemma {:induction false} SumFiniteSnoc(s: seq<Score>, x: Score)
    ensures SumFinite(s + [x]) == SumFinite(s) + (if x.Finite? then x.v else 0.0)
    decreases |s|
  {
    if |s| == 0 {
      assert s + [x] == [x];
    } else {
      assert (s + [x])[1..] == s[1..] + [x];
      SumFiniteSnoc(s[1..], x);
    }
  }

  /** `s.reduce((a,b) => a+b, 0)`: a left fold, finite exactly when every term is. */
  function Total(s: seq<Score>): (t: Score)
    ensures t.Finite? <==> forall j :: 0 <= j < |s| ==> s[j].Finite?
    ensures t.Finite? ==> t.v == SumFinite(s)
    decreases |s|
  {
    if |s| == 0 then Finite(0.0)
    else
      var init := s[..|s| - 1];
      assert s == init + [s[|s| - 1]];
      SumFiniteSnoc(init, s[|s| - 1]);
      Add(Total(init), s[|s| - 1])
  }

  /** `total / s.length` */
  function Mean(s: seq<Score>): (r: Score)
    requires |s| > 0
    ensures r.Finite? <==> forall j :: 0 <= j < |s| ==> s[j].Finite?
    ensures r.Finite? ==> r.v * (|s| as real) == SumFinite(s)
  {
    var t := Total(s);
    if t.Finite? then Finite(t.v / |s| as real) else NonFinite
  }

  /** One record's scaled vector and index, given the ten maxima. */
  function EnrichOne(c: City, maxes: seq<real>): Entry
    requires |maxes| == |Keys|
  {
    var norm := seq(|Keys|, j requires 0 <= j < |Keys| => Normalise(OrZero(c, Keys[j]), maxes[j]));
    Entry(c.name, c, norm, Mean(norm))
  }

  /** `enriched`: one entry per record, in input order. */
  function Enrich(data: seq<City>): (r: seq<Entry>)
    ensures |r| == |data|
    ensures forall i :: 0 <= i < |data| ==>
      r[i].raw == data[i] && r[i].city == data[i].name && |r[i].norm| == |Keys|
  {
    if |data| == 0 then []
    else
      var maxes := MaxValues(data);
      seq(|data|, i requires 0 <= i < |data| => EnrichOne(data[i], maxes))
  }

  /** Scaled value j of record i is metric Keys[j] of that record over that metric's maximum. */
  lemma NormFollowsKeys(data: seq<City>, i: int, j: int)
    requires 0 <= i < |data| && 0 <= j < |Keys|
    ensures Enrich(data)[i].norm[j] == Normalise(OrZero(data[i], Keys[j]), ColumnMax(data, Keys[j]))
  {
  }

  /** A missing metric takes part in the maximum as 0, and scales to 0. */
  lemma MissingMetricCountsAsZero(data: seq<City>, i: int, j: int)
    requires 0 <= i < |data| && 0 <= j < |Keys|
    requires Keys[j] !in data[i].metrics
    ensures ColumnMax(data, Keys[j]) >= 0.0
    ensures ColumnMax(data, Keys[j]) != 0.0 ==> Enrich(data)[i].norm[j] == Finite(0.0)
  {
    assert OrZero(data[i], Keys[j]) == 0.0;
    NormFollowsKeys(data, i, j);
    if ColumnMax(data, Keys[j]) != 0.0 {
      NormaliseZero(ColumnMax(data, Keys[j]));
    }
  }

  /** With non-negative metrics a maximum is 0 exactly when the whole column is 0. */
  lemma ZeroMaxMeansZeroColumn(data: seq<City>, k: Key)
    requires |data| > 0 && NonNegative(data)
    ensures ColumnMax(data, k) >= 0.0
    ensures ColumnMax(data, k) == 0.0 <==> forall i :: 0 <= i < |data| ==> OrZero(data[i], k) == 0.0
  {
    assert OrZero(data[0], k) >= 0.0;
  }

  /** With non-negative metrics and a positive maximum, a scaled value lies
      in [0, 100], and a record attaining the maximum scores exactly 100. */
  lemma NormInRange(data: seq<City>, i: int, j: int)
    requires 0 <= i < |data| && 0 <= j < |Keys|
    requires NonNegative(data) && ColumnMax(data, Keys[j]) > 0.0
    ensures Enrich(data)[i].norm[j].Finite?
    ensures 0.0 <= Enrich(data)[i].norm[j].v <= 100.0
    ensures OrZero(data[i], Keys[j]) == ColumnMax(data, Keys[j]) ==> Enrich(data)[i].norm[j].v == 100.0
  {
    var x, m := OrZero(data[i], Keys[j]), ColumnMax(data, Keys[j]);
    NormFollowsKeys(data, i, j);
    NormaliseBounds(x, m);
  }

  /** Some record scores 100 on every metric whose maximum is positive. */
  lemma SomeRecordScoresHundred(data: seq<City>, j: int)
    requires |data| > 0 && 0 <= j < |Keys|
    requires NonNegative(data) && ColumnMax(data, Keys[j]) > 0.0
    ensures exists i :: 0 <= i < |data| && Enrich(data)[i].norm[j] == Finite(100.0)
  {
    var i :| 0 <= i < |data| && OrZero(data[i], Keys[j]) == ColumnMax(data, Keys[j]);
    NormInRange(data, i, j);
  }

  /** A maximum of 0 makes that metric non-finite for every record. */
  lemma ZeroMaxIsNonFinite(data: seq<City>, i: int, j: int)
    requires 0 <= i < |data| && 0 <= j < |Keys|
    requires ColumnMax(data, Keys[j]) == 0.0
    ensures Enrich(data)[i].norm[j] == NonFinite
    ensures Enrich(data)[i].index == NonFinite
  {
    NormFollowsKeys(data, i, j);
  }

  /** Every maximum of the dataset is non-zero. */
  ghost predicate AllMaximaNonZero(data: seq<City>)
    requires |data| > 0
  {
    forall j :: 0 <= j < |Keys| ==> ColumnMax(data, Keys[j]) != 0.0
  }

  /** A record's index is the mean of its own ten scaled values. */
  lemma IndexOfNorm(data: seq<City>, i: int)
    requires 0 <= i < |data|
    ensures Enrich(data)[i].index == Mean(Enrich(data)[i].norm)
  {
    assert Enrich(data)[i] == EnrichOne(data[i], MaxValues(data));
  }

  /** A record's ten scaled values are all finite exactly when no maximum is 0. */
  lemma NormFiniteIffMaximaNonZero(data: seq<City>, i: int)
    requires 0 <= i < |data|
    ensures (forall j :: 0 <= j < |Keys| ==> Enrich(data)[i].norm[j].Finite?) <==> AllMaximaNonZero(data)
  {
    forall j | 0 <= j < |Keys|
      ensures Enrich(data)[i].norm[j].Finite? <==> ColumnMax(data, Keys[j]) != 0.0
    {
      NormFollowsKeys(data, i, j);
    }
  }

  /** The index is finite exactly when no maximum is 0, for every record alike;
      when finite, ten times it is the sum of the ten scaled values. */
  lemma IndexIsMean(data: seq<City>, i: int)
    requires 0 <= i < |data|
    ensures Enrich(data)[i].index.Finite? <==> AllMaximaNonZero(data)
    ensures Enrich(data)[i].index.Finite? ==>
      Enrich(data)[i].index.v * 10.0 == SumFinite(Enrich(data)[i].norm)
  {
    var e := Enrich(data)[i];
    IndexOfNorm(data, i);
    NormFiniteIffMaximaNonZero(data, i);
    MeanOfTen(e.norm, e.index);
  }

  lemma MeanOfTen(s: seq<Score>, m: Score)
    requires |s| == |Keys| && m == Mean(s)
    ensures m.Finite? <==> forall j :: 0 <= j < |s| ==> s[j].Finite?
    ensures m.Finite? ==> m.v * 10.0 == SumFinite(s)
  {
  }

  /** Either every record has a finite index or none has. */
  lemma IndexFinitenessIsUniform(data: seq<City>, i: int, i': int)
    requires 0 <= i < |data| && 0 <= i' < |data|
    ensures Enrich(data)[i].index.Finite? == Enrich(data)[i'].index.Finite?
  {
    IndexIsMean(data, i);
    IndexIsMean(data, i');
  }

  lemma {:induction false} SumFiniteBounds(s: seq<Score>, hi: real)
    requires forall j :: 0 <= j < |s| ==> s[j].Finite? && 0.0 <= s[j].v <= hi
    ensures 0.0 <= SumFinite(s) <= hi * |s| as real
    decreases |s|
  {
    if |s| > 0 {
      SumFiniteBounds(s[1..], hi);
    }
  }

  /** With non-negative metrics and no column entirely 0, all ten scaled
      values of a record are finite and in [0, 100]. */
  lemma ScoresInRange(data: seq<City>, i: int)
    requires 0 <= i < |data| && NonNegative(data) && AllMaximaNonZero(data)
    ensures forall j :: 0 <= j < |Keys| ==>
      Enrich(data)[i].norm[j].Finite? && 0.0 <= Enrich(data)[i].norm[j].v <= 100.0
  {
    forall j | 0 <= j < |Keys|
      ensures Enrich(data)[i].norm[j].Finite? && 0.0 <= Enrich(data)[i].norm[j].v <= 100.0
    {
      ZeroMaxMeansZeroColumn(data, Keys[j]);
      NormInRange(data, i, j);
    }
  }

  lemma MeanOfBoundedScores(s: seq<Score>, idx: real)
    requires |s| == |Keys|
    requires forall j :: 0 <= j < |s| ==> s[j].Finite? && 0.0 <= s[j].v <= 100.0
    requires idx * 10.0 == SumFinite(s)
    ensures 0.0 <= idx <= 100.0
  {
    SumFiniteBounds(s, 100.0);
  }

  /** With non-negative metrics and no column entirely 0, the index lies in [0, 100]. */
  lemma IndexInRange(data: seq<City>, i: int)
    requires 0 <= i < |data| && NonNegative(data) && AllMaximaNonZero(data)
    ensures Enrich(data)[i].index.Finite?
    ensures 0.0 <= Enrich(data)[i].index.v <= 100.0
  {
    var e := Enrich(data)[i];
    ScoresInRange(data, i);
    IndexIsMean(data, i);
    MeanOfBoundedScores(e.norm, e.index.v);
  }
}

=== FILE: metrics.dfy ===
/** Configuration shared by the dashboard and the pin-buffer radar: the ten
    metric keys, their display labels, the table-column map, and the city
    record with JavaScript's `value || 0` reading of a metric. */
module Metrics {
  import opened Wrappers

  /** The ten metric keys of a city record. */
  datatype Key = Pop | Ships | Wagons | Bank | Export | Mage | Mil | Threat | Hub | Lit

  /** `keys`: the fixed order used by the table, the normalised vector and the radar axes. */
  const Keys: seq<Key> := [Pop, Ships, Wagons, Bank, Export, Mage, Mil, Threat, Hub, Lit]

  /** `labels`, aligned with Keys. */
  const Labels: seq<string> :=
    ["Population", "Ships/day", "Wagons/day", "Bank (gp)", "Export",
     "Mage", "Military", "Threat", "Hub", "Literacy"]

  /** `radarMetrics` of the pin-buffer radar, written out separately there. */
  const RadarMetrics: seq<Key> := [Pop, Ships, Wagons, Bank, Export, Mage, Mil, Threat, Hub, Lit]

  /** `colKeyMap`: table column index to metric key; columns 0-1 are rank and name. */
  const ColKeyMap: map<int, Key> :=
    map[2 := Pop, 3 := Ships, 4 := Wagons, 5 := Bank, 6 := Export,
        7 := Mage, 8 := Mil, 9 := Threat, 10 := Hub, 11 := Lit]

  /** Position of a key in Keys. */
  function KeyIndex(k: Key): (i: nat)
    ensures i < |Keys| && Keys[i] == k
  {
    match k
    case Pop => 0
    case Ships => 1
    case Wagons => 2
    case Bank => 3
    case Export => 4
    case Mage => 5
    case Mil => 6
    case Threat => 7
    case Hub => 8
    case Lit => 9
  }

  /** Keys lists every key exactly once, so KeyIndex is its inverse. */
  lemma KeysAreDistinct()
    ensures forall i :: 0 <= i < |Keys| ==> KeyIndex(Keys[i]) == i
    ensures forall i, j :: 0 <= i < j < |Keys| ==> Keys[i] != Keys[j]
  {
  }

  /** The two scripts name the metrics in the same order. */
  lemma RadarMetricsAreKeys()
    ensures RadarMetrics == Keys
  {
  }

  /** The display label of a metric (`columnLabelMap[k]`). */
  function Label(k: Key): (s: string)
    ensures s == Labels[KeyIndex(k)]
  {
    match k
    case Pop => "Population"
    case Ships => "Ships/day"
    case Wagons => "Wagons/day"
    case Bank => "Bank (gp)"
    case Export => "Export"
    case Mage => "Mage"
    case Mil => "Military"
    case Threat => "Threat"
    case Hub => "Hub"
    case Lit => "Literacy"
  }

  /** The key a header column sorts by, or None for a column that is not a metric. */
  function ColKey(col: int): (r: Option<Key>)
    ensures r.Some? <==> 2 <= col < 2 + |Keys|
    ensures r.Some? ==> r.value == Keys[col - 2]
  {
    if col in ColKeyMap then Some(ColKeyMap[col]) else None
  }

  /** Every metric has exactly one header column. */
  lemma EveryKeyHasOneColumn(k: Key)
    ensures ColKey(KeyIndex(k) + 2) == Some(k)
    ensures forall col :: ColKey(col) == Some(k) ==> col == KeyIndex(k) + 2
  {
    KeysAreDistinct();
  }

  /** A city record. A key absent from `metrics` stands for a field that is
      null or undefined; `why` and `who` are the two free-text fields. */
  datatype City = City(name: string, metrics: map<Key, real>, why: Option<string>, who: Option<string>)

  /** `city[k]` as read by the table: absent stays absent. */
  function Raw(c: City, k: Key): Option<real>
  {
    if k in c.metrics then Some(c.metrics[k]) else None
  }

  /** `city[k] || 0`: an absent metric (or a stored 0) reads as 0. */
  function OrZero(c: City, k: Key): real
  {
    if k in c.metrics then c.metrics[k] else 0.0
  }

  /** Every metric of every record is non-negative. */
  ghost predicate NonNegative(data: seq<City>)
  {
    forall i, k :: 0 <= i < |data| && k in data[i].metrics ==> data[i].metrics[k] >= 0.0
  }
}

=== FILE: ordering.dfy ===
/** The sort of `updateCharts`: a stable sort of the enriched records under a
    comparator of the form `rank(a) - rank(b)`. By index the comparator is
    `b.index - a.index` whatever the direction; by a metric it compares
    `raw[k]||0` in the chosen direction. */
module Ordering {
  import opened Metrics
  import opened Enrichment
  import opened SortControl

  /** The number the comparator subtracts: sorting ascends in it. A
      non-finite index ranks as 0, which makes every comparison a tie. */
  function Rank(st: SortState, e: Entry): real
  {
    match st.key
    case IndexKey => if e.index.Finite? then -e.index.v else 0.0
    case MetricKey(k) => if st.dir == Desc then -OrZero(e.raw, k) else OrZero(e.raw, k)
  }

  /** The comparator as written, with the ECMAScript rule that a NaN result
      counts as 0; a pair mixing a finite and a non-finite index is treated
      as a tie (Enrichment.IndexFinitenessIsUniform shows it never arises). */
  function Compare(st: SortState, a: Entry, b: Entry): real
  {
    match st.key
    case IndexKey =>
      if a.index.Finite? && b.index.Finite? then b.index.v - a.index.v else 0.0
    case MetricKey(k) =>
      if st.dir == Desc then OrZero(b.raw, k) - OrZero(a.raw, k)
      else OrZero(a.raw, k) - OrZero(b.raw, k)
  }

  /** A metric comparator, and the index comparator when both indices are
      finite or both are not, is the difference of ranks, so it is consistent. */
  lemma CompareIsRankDifference(st: SortState, a: Entry, b: Entry)
    requires st.key == IndexKey ==> a.index.Finite? == b.index.Finite?
    ensures Compare(st, a, b) == Rank(st, a) - Rank(st, b)
    ensures Compare(st, a, b) == -Compare(st, b, a)
  {
  }

  /** `s` ascends in rank. */
  ghost predicate Sorted(st: SortState, s: seq<Entry>)
  {
    forall i, j :: 0 <= i < j < |s| ==> Rank(st, s[i]) <= Rank(st, s[j])
  }

  /** The entries of `s` whose rank is `v`, in their order in `s`. */
  function Ties(st: SortState, s: seq<Entry>, v: real): seq<Entry>
  {
    if |s| == 0 then []
    else (if Rank(st, s[0]) == v then [s[0]] else []) + Ties(st, s[1..], v)
  }

  /** Puts `x` before the first entry that does not rank below it. */
  function Insert(st: SortState, x: Entry, s: seq<Entry>): (r: seq<Entry>)
    ensures multiset(r) == multiset(s) + multiset{x}
    decreases |s|
  {
    if |s| == 0 || Rank(st, x) <= Rank(st, s[0]) then [x] + s
    else
      assert s == [s[0]] + s[1..];
      [s[0]] + Insert(st, x, s[1..])
  }

  /** Inserting keeps every group of equal rank in the order of `[x] + s`. */
  lemma {:induction false} InsertKeepsTies(st: SortState, x: Entry, s: seq<Entry>, v: real)
    ensures Ties(st, Insert(st, x, s), v) == Ties(st, [x] + s, v)
    decreases |s|
  {
    if |s| == 0 || Rank(st, x) <= Rank(st, s[0]) {
    } else {
      var rest := Insert(st, x, s[1..]);
      InsertKeepsTies(st, x, s[1..], v);
      assert ([s[0]] + rest)[1..] == rest;
      assert ([x] + s[1..])[1..] == s[1..];
      assert ([x] + s)[1..] == s;
      assert s[1..] == s[1..][0..];
    }
  }

  /** Inserting into a sorted sequence gives a sorted sequence. */
  lemma {:induction false} InsertKeepsSorted(st: SortState, x: Entry, s: seq<Entry>)
    requires Sorted(st, s)
    ensures Sorted(st, Insert(st, x, s))
    decreases |s|
  {
    if |s| == 0 || Rank(st, x) <= Rank(st, s[0]) {
    } else {
      var rest := Insert(st, x, s[1..]);
      InsertKeepsSorted(st, x, s[1..]);
      forall i | 0 <= i < |rest| ensures Rank(st, s[0]) <= Rank(st, rest[i]) {
        assert rest[i] in multiset(rest);
        assert rest[i] in multiset(s[1..]) + multiset{x};
        if rest[i] != x {
          var j :| 0 <= j < |s[1..]| && s[1..][j] == rest[i];
          assert s[j + 1] == rest[i];
        }
      }
      assert Insert(st, x, s) == [s[0]] + rest;
    }
  }

  /** `enriched.slice().sort(cmp)`: an insertion sort, a permutation that ascends in rank. */
  function Sort(st: SortState, s: seq<Entry>): (r: seq<Entry>)
    ensures multiset(r) == multiset(s) && |r| == |s|
    ensures Sorted(st, r)
    decreases |s|
  {
    if |s| == 0 then []
    else
      var rest := Sort(st, s[1..]);
      assert s == [s[0]] + s[1..];
      InsertKeepsSorted(st, s[0], rest);
      Insert(st, s[0], rest)
  }

  /** The sort is stable: each group of equal rank keeps its input order. */
  lemma {:induction false} SortKeepsTies(st: SortState, s: seq<Entry>, v: real)
    ensures Ties(st, Sort(st, s), v) == Ties(st, s, v)
    decreases |s|
  {
    if |s| > 0 {
      var rest := Sort(st, s[1..]);
      SortKeepsTies(st, s[1..], v);
      InsertKeepsTies(st, s[0], rest, v);
      assert ([s[0]] + rest)[1..] == rest;
      assert s == [s[0]] + s[1..];
    }
  }

  lemma {:induction false} TiesMember(st: SortState, s: seq<Entry>, v: real, x: Entry)
    requires x in Ties(st, s, v)
    ensures x in s && Rank(st, x) == v
    decreases |s|
  {
    if x != s[0] || Rank(st, s[0]) != v {
      TiesMember(st, s[1..], v, x);
    }
  }

  lemma SortedHeadIsLeast(st: SortState, s: seq<Entry>, x: Entry)
    requires Sorted(st, s) && x in s
    ensures Rank(st, s[0]) <= Rank(st, x)
  {
    var k :| 0 <= k < |s| && s[k] == x;
  }

  /** An entry of rank `v` in `a` that is also the head of `a` heads its group. */
  lemma HeadOpensGroup(st: SortState, a: seq<Entry>)
    requires |a| > 0
    ensures Ties(st, a, Rank(st, a[0])) == [a[0]] + Ties(st, a[1..], Rank(st, a[0]))
  {
  }

  /** Two non-empty sorted sequences with the same groups of equal rank
      start with the same entry. */
  lemma SortedTiesSameHead(st: SortState, a: seq<Entry>, b: seq<Entry>)
    requires Sorted(st, a) && Sorted(st, b) && |a| > 0 && |b| > 0
    requires forall v :: Ties(st, a, v) == Ties(st, b, v)
    ensures a[0] == b[0]
  {
    var ra, rb := Rank(st, a[0]), Rank(st, b[0]);
    HeadOpensGroup(st, a);
    HeadOpensGroup(st, b);
    assert Ties(st, a, ra) == Ties(st, b, ra);
    assert Ties(st, a, rb) == Ties(st, b, rb);
    assert a[0] in Ties(st, b, ra);
    TiesMember(st, b, ra, a[0]);
    SortedHeadIsLeast(st, b, a[0]);
    assert b[0] in Ties(st, a, rb);
    TiesMember(st, a, rb, b[0]);
    SortedHeadIsLeast(st, a, b[0]);
    assert ra == rb;
    assert Ties(st, b, ra)[0] == b[0];
  }

  /** Dropping equal heads keeps the groups of equal rank equal. */
  lemma TiesOfTails(st: SortState, a: seq<Entry>, b: seq<Entry>, w: real)
    requires |a| > 0 && |b| > 0 && a[0] == b[0]
    requires Ties(st, a, w) == Ties(st, b, w)
    ensures Ties(st, a[1..], w) == Ties(st, b[1..], w)
  {
    var p := if Rank(st, a[0]) == w then [a[0]] else [];
    assert Ties(st, a, w) == p + Ties(st, a[1..], w);
    assert Ties(st, b, w) == p + Ties(st, b[1..], w);
    assert Ties(st, a[1..], w) == Ties(st, a, w)[|p|..];
    assert Ties(st, b[1..], w) == Ties(st, b, w)[|p|..];
  }

  /** Two sorted sequences with the same groups of equal rank are equal. */
  lemma {:induction false} SortedTiesDetermine(st: SortState, a: seq<Entry>, b: seq<Entry>)
    requires Sorted(st, a) && Sorted(st, b)
    requires forall v :: Ties(st, a, v) == Ties(st, b, v)
    ensures a == b
    decreases |a| + |b|
  {
    if |a| == 0 && |b| == 0 {
    } else if |a| == 0 {
      HeadOpensGroup(st, b);
      assert false;
    } else if |b| == 0 {
      HeadOpensGroup(st, a);
      assert false;
    } else {
      SortedTiesSameHead(st, a, b);
      forall w ensures Ties(st, a[1..], w) == Ties(st, b[1..], w) {
        TiesOfTails(st, a, b, w);
      }
      SortedTiesDetermine(st, a[1..], b[1..]);
      assert a == [a[0]] + a[1..];
      assert b == [b[0]] + b[1..];
    }
  }

  /** Sort is the only stable arrangement: any sequence that ascends in rank
      and keeps each group of equal rank in input order is Sort's result. */
  lemma StableSortIsUnique(st: SortState, s: seq<Entry>, t: seq<Entry>)
    requires Sorted(st, t)
    requires forall v :: Ties(st, t, v) == Ties(st, s, v)
    ensures t == Sort(st, s)
  {
    forall v ensures Ties(st, Sort(st, s), v) == Ties(st, s, v) {
      SortKeepsTies(st, s, v);
    }
    SortedTiesDetermine(st, t, Sort(st, s));
  }

  /** Sorting by index ignores the direction field. */
  lemma IndexSortIgnoresDirection(s: seq<Entry>)
    ensures Sort(SortState(IndexKey, Asc), s) == Sort(SortState(IndexKey, Desc), s)
  {
    var asc, desc := SortState(IndexKey, Asc), SortState(IndexKey, Desc);
    var t := Sort(desc, s);
    forall v ensures Ties(desc, t, v) == Ties(desc, s, v) {
      SortKeepsTies(desc, s, v);
    }
    assert forall e :: Rank(asc, e) == Rank(desc, e);
    assert forall v :: Ties(asc, t, v) == Ties(desc, t, v) by {
      forall v ensures Ties(asc, t, v) == Ties(desc, t, v) {
        SameRankSameTies(asc, desc, t, v);
      }
    }
    forall v ensures Ties(asc, s, v) == Ties(desc, s, v) {
      SameRankSameTies(asc, desc, s, v);
    }
    StableSortIsUnique(asc, s, t);
  }

  lemma {:induction false} SameRankSameTies(st1: SortState, st2: SortState, s: seq<Entry>, v: real)
    requires forall e :: Rank(st1, e) == Rank(st2, e)
    ensures Ties(st1, s, v) == Ties(st2, s, v)
    decreases |s|
  {
    if |s| > 0 {
      SameRankSameTies(st1, st2, s[1..], v);
    }
  }

  /** Sorted by index, the indices do not increase (when they are finite). */
  lemma IndexSortIsDescending(d: Direction, s: seq<Entry>)
    requires forall i :: 0 <= i < |s| ==> s[i].index.Finite?
    ensures forall i :: 0 <= i < |Sort(SortState(IndexKey, d), s)| ==>
      Sort(SortState(IndexKey, d), s)[i].index.Finite?
    ensures forall i, j :: 0 <= i < j < |Sort(SortState(IndexKey, d), s)| ==>
      Sort(SortState(IndexKey, d), s)[i].index.v >= Sort(SortState(IndexKey, d), s)[j].index.v
  {
    var st := SortState(IndexKey, d);
    var r := Sort(st, s);
    forall i | 0 <= i < |r| ensures r[i].index.Finite? {
      assert r[i] in multiset(s);
    }
    forall i, j | 0 <= i < j < |r| ensures r[i].index.v >= r[j].index.v {
      assert Rank(st, r[i]) <= Rank(st, r[j]);
    }
  }

  /** Sorted by a metric descending, `raw[k]||0` does not increase. */
  lemma MetricSortDescending(k: Key, s: seq<Entry>)
    ensures forall i, j :: 0 <= i < j < |Sort(SortState(MetricKey(k), Desc), s)| ==>
      OrZero(Sort(SortState(MetricKey(k), Desc), s)[i].raw, k) >=
      OrZero(Sort(SortState(MetricKey(k), Desc), s)[j].raw, k)
  {
    var st := SortState(MetricKey(k), Desc);
    var r := Sort(st, s);
    forall i, j | 0 <= i < j < |r| ensures OrZero(r[i].raw, k) >= OrZero(r[j].raw, k) {
      assert Rank(st, r[i]) <= Rank(st, r[j]);
    }
  }

  /** Sorted by a metric ascending, `raw[k]||0` does not decrease. */
  lemma MetricSortAscending(k: Key, s: seq<Entry>)
    ensures forall i, j :: 0 <= i < j < |Sort(SortState(MetricKey(k), Asc), s)| ==>
      OrZero(Sort(SortState(MetricKey(k), Asc), s)[i].raw, k) <=
      OrZero(Sort(SortState(MetricKey(k), Asc), s)[j].raw, k)
  {
    var st := SortState(MetricKey(k), Asc);
    var r := Sort(st, s);
    forall i, j | 0 <= i < j < |r| ensures OrZero(r[i].raw, k) <= OrZero(r[j].raw, k) {
      assert Rank(st, r[i]) <= Rank(st, r[j]);
    }
  }
}

=== FILE: radar_pins.dfy ===
/** The secondary radar chart: a bounded, order-preserving list of pinned
    cities with toggle semantics, a "selected" marker on each pinned city's
    row, and one chart series per pinned city coloured from a six-colour
    palette. A row is identified by its city's name. */
module RadarPins {
  import opened Wrappers
  import opened Metrics

  // Capacity

  /** The capacity read from the cap input at each toggle. */
  datatype Cap = Unbounded | AtMost(n: int)

  /** `parseInt(value, 10) || Infinity`, given the parse result (None for NaN):
      NaN and 0 mean no bound; a negative number is kept as it is. */
  function ParseCap(parsed: Option<int>): (c: Cap)
    ensures c.Unbounded? <==> parsed.None? || parsed.value == 0
    ensures c.AtMost? ==> c.n == parsed.value && c.n != 0
  {
    match parsed
    case None => Unbounded
    case Some(n) => if n == 0 then Unbounded else AtMost(n)
  }

  /** `radarBuffer.length >= cap` */
  function IsFull(len: nat, cap: Cap): bool
  {
    cap.AtMost? && len >= cap.n
  }

  // Buffer and markers

  /** A click on a city: the city, and whether it carries its row element. */
  datatype Request = Request(city: City, hasRow: bool)

  /** The buffer, oldest pin first, and the names whose row is marked "selected". */
  datatype Pins = Pins(buffer: seq<City>, marked: set<string>)

  const NoPins: Pins := Pins([], {})

  /** The result of a toggle: the new state, or the TypeError raised when the
      buffer is full yet empty (a negative capacity), which leaves the state as it was. */
  datatype Outcome<T> = Done(value: T) | Crashed

  /** The names in a buffer. */
  function Names(buf: seq<City>): set<string>
  {
    set i | 0 <= i < |buf| :: buf[i].name
  }

  /** No two pinned cities share a name. */
  ghost predicate DistinctNames(buf: seq<City>)
  {
    forall i, j :: 0 <= i < j < |buf| ==> buf[i].name != buf[j].name
  }

  /** The invariant the toggle keeps: distinct names, and the marked rows are
      exactly the pinned ones. */
  ghost predicate Valid(p: Pins)
  {
    DistinctNames(p.buffer) && p.marked == Names(p.buffer)
  }

  /** `radarBuffer.findIndex(c => c.c === name)`: the first position holding
      the name, or -1. */
  function FindByName(buf: seq<City>, name: string): (idx: int)
    ensures -1 <= idx < |buf|
    ensures idx >= 0 ==> buf[idx].name == name && forall j :: 0 <= j < idx ==> buf[j].name != name
    ensures idx == -1 <==> name !in Names(buf)
    decreases |buf|
  {
    if |buf| == 0 then -1
    else if buf[0].name == name then 0
    else
      var r := FindByName(buf[1..], name);
      assert Names(buf) == {buf[0].name} + Names(buf[1..]) by {
        forall n | n in Names(buf) ensures n in {buf[0].name} + Names(buf[1..]) {
          var i :| 0 <= i < |buf| && buf[i].name == n;
          if i > 0 { assert buf[1..][i - 1].name == n; }
        }
        forall n | n in Names(buf[1..]) ensures n in Names(buf) {
          var i :| 0 <= i < |buf[1..]| && buf[1..][i].name == n;
          assert buf[i + 1].name == n;
        }
      }
      if r == -1 then -1 else r + 1
  }

  /** `window.toggleRadar(city)`, without the redraw. */
  function Toggle(p: Pins, req: Request, cap: Cap): Outcome<Pins>
  {
    if !req.hasRow then Done(p)
    else
      var name := req.city.name;
      var idx := FindByName(p.buffer, name);
      if idx > -1 then
        Done(Pins(p.buffer[..idx] + p.buffer[idx + 1..], p.marked - {name}))
      else if IsFull(|p.buffer|, cap) then
        if |p.buffer| == 0 then Crashed
        else Done(Pins(p.buffer[1..] + [req.city], p.marked - {p.buffer[0].name} + {name}))
      else
        Done(Pins(p.buffer + [req.city], p.marked + {name}))
  }

  // Properties of one toggle

  /** A city without a row element changes nothing. */
  lemma ToggleWithoutRowIsNoOp(p: Pins, req: Request, cap: Cap)
    requires !req.hasRow
    ensures Toggle(p, req, cap) == Done(p)
  {
  }

  lemma NamesOfSplice(buf: seq<City>, i: int)
    requires 0 <= i < |buf| && DistinctNames(buf)
    ensures DistinctNames(buf[..i] + buf[i + 1..])
    ensures Names(buf[..i] + buf[i + 1..]) == Names(buf) - {buf[i].name}
  {
    var r := buf[..i] + buf[i + 1..];
    assert forall k :: 0 <= k < |r| ==> r[k] == if k < i then buf[k] else buf[k + 1];
    forall n | n in Names(buf) - {buf[i].name} ensures n in Names(r) {
      var k :| 0 <= k < |buf| && buf[k].name == n;
      if k < i { assert r[k].name == n; } else { assert r[k - 1].name == n; }
    }
  }

  /** Toggling a pinned city removes exactly its entry, keeps the others in
      order, and clears its marker. */
  lemma ToggleUnpins(p: Pins, req: Request, cap: Cap, i: int)
    requires Valid(p) && req.hasRow
    requires 0 <= i < |p.buffer| && p.buffer[i].name == req.city.name
    ensures Toggle(p, req, cap) == Done(Pins(p.buffer[..i] + p.buffer[i + 1..], p.marked - {req.city.name}))
    ensures Valid(Toggle(p, req, cap).value)
    ensures req.city.name !in Toggle(p, req, cap).value.marked
  {
    assert FindByName(p.buffer, req.city.name) == i;
    NamesOfSplice(p.buffer, i);
  }

  lemma NamesOfAppend(buf: seq<City>, c: City)
    ensures Names(buf + [c]) == Names(buf) + {c.name}
    ensures DistinctNames(buf) && c.name !in Names(buf) ==> DistinctNames(buf + [c])
  {
    var r := buf + [c];
    assert r[|buf|].name == c.name;
    forall n | n in Names(buf) ensures n in Names(r) {
      var k :| 0 <= k < |buf| && buf[k].name == n;
      assert r[k].name == n;
    }
    if DistinctNames(buf) && c.name !in Names(buf) {
      forall i, j | 0 <= i < j < |r| ensures r[i].name != r[j].name {
        if j == |buf| { assert r[i] == buf[i]; }
      }
    }
  }

  lemma NamesOfTail(buf: seq<City>)
    requires |buf| > 0 && DistinctNames(buf)
    ensures DistinctNames(buf[1..])
    ensures Names(buf[1..]) == Names(buf) - {buf[0].name}
  {
    NamesOfSplice(buf, 0);
    assert buf[..0] + buf[1..] == buf[1..];
  }

  /** Below capacity (or unbounded), a new city is appended and marked;
      nothing else changes. */
  lemma TogglePinsBelowCap(p: Pins, req: Request, cap: Cap)
    requires Valid(p) && req.hasRow
    requires req.city.name !in Names(p.buffer) && !IsFull(|p.buffer|, cap)
    ensures Toggle(p, req, cap) == Done(Pins(p.buffer + [req.city], p.marked + {req.city.name}))
    ensures Valid(Toggle(p, req, cap).value)
  {
    NamesOfAppend(p.buffer, req.city);
  }

  /** At capacity, the oldest pin is dropped and unmarked before the new
      city is appended and marked, so the length is unchanged. */
  lemma ToggleEvictsOldest(p: Pins, req: Request, cap: Cap)
    requires Valid(p) && req.hasRow && |p.buffer| > 0
    requires req.city.name !in Names(p.buffer) && IsFull(|p.buffer|, cap)
    ensures Toggle(p, req, cap) ==
      Done(Pins(p.buffer[1..] + [req.city], p.marked - {p.buffer[0].name} + {req.city.name}))
    ensures |Toggle(p, req, cap).value.buffer| == |p.buffer|
    ensures p.buffer[0].name !in Toggle(p, req, cap).value.marked
    ensures Valid(Toggle(p, req, cap).value)
  {
    assert p.buffer[0].name in Names(p.buffer);
    NamesOfTail(p.buffer);
    assert req.city.name !in Names(p.buffer[1..]);
    NamesOfAppend(p.buffer[1..], req.city);
  }

  /** The toggle throws exactly when a new city meets a buffer that is both
      empty and full, which takes a negative capacity. */
  lemma ToggleCrashesOnlyOnNegativeCap(p: Pins, req: Request, parsed: Option<int>)
    ensures Toggle(p, req, ParseCap(parsed)) == Crashed <==>
      req.hasRow && |p.buffer| == 0 && parsed.Some? && parsed.value < 0
  {
  }

  /** Every toggle keeps the invariant. */
  lemma TogglePreservesValid(p: Pins, req: Request, cap: Cap)
    requires Valid(p) && Toggle(p, req, cap).Done?
    ensures Valid(Toggle(p, req, cap).value)
  {
    if req.hasRow {
      var idx := FindByName(p.buffer, req.city.name);
      if idx > -1 {
        ToggleUnpins(p, req, cap, idx);
      } else if IsFull(|p.buffer|, cap) {
        ToggleEvictsOldest(p, req, cap);
      } else {
        TogglePinsBelowCap(p, req, cap);
      }
    }
  }

  /** With a fixed capacity c >= 1 the buffer never grows past c. */
  lemma ToggleKeepsBound(p: Pins, req: Request, c: int)
    requires c >= 1 && |p.buffer| <= c && Toggle(p, req, AtMost(c)).Done?
    ensures |Toggle(p, req, AtMost(c)).value.buffer| <= c
  {
  }

  /** Pinning a new city without eviction and toggling it again restores the state. */
  lemma PinThenUnpinRestores(p: Pins, req: Request, cap: Cap)
    requires Valid(p) && req.hasRow
    requires req.city.name !in Names(p.buffer) && !IsFull(|p.buffer|, cap)
    ensures Toggle(p, req, cap).Done?
    ensures Toggle(Toggle(p, req, cap).value, req, cap) == Done(p)
  {
    TogglePinsBelowCap(p, req, cap);
    var q := Toggle(p, req, cap).value;
    ToggleUnpins(q, req, cap, |p.buffer|);
    assert q.buffer[..|p.buffer|] + q.buffer[|p.buffer| + 1..] == p.buffer;
    assert q.marked - {req.city.name} == p.marked;
  }

  /** Lowering the capacity below the buffer's length does not trim it: a new
      pin evicts only one entry, so the buffer stays above the new capacity. */
  lemma LoweredCapStaysOver(p: Pins, req: Request, c: int)
    requires Valid(p) && req.hasRow && req.city.name !in Names(p.buffer)
    requires 1 <= c < |p.buffer|
    ensures Toggle(p, req, AtMost(c)).Done?
    ensures |Toggle(p, req, AtMost(c)).value.buffer| == |p.buffer| > c
  {
    ToggleEvictsOldest(p, req, AtMost(c));
  }

  // Runs of toggles

  /** One click's handler as the page sees it: a throw aborts only that call,
      and since it happens before any change the pins stay as they were. */
  function Handle(p: Pins, req: Request, cap: Cap): (r: Pins)
    ensures Valid(p) ==> Valid(r)
    ensures Toggle(p, req, cap).Crashed? ==> r == p
    ensures Toggle(p, req, cap).Done? ==> r == Toggle(p, req, cap).value
  {
    match Toggle(p, req, cap)
    case Crashed => p
    case Done(q) => DoneIsValid(p, req, cap); q
  }

  lemma DoneIsValid(p: Pins, req: Request, cap: Cap)
    ensures Valid(p) && Toggle(p, req, cap).Done? ==> Valid(Toggle(p, req, cap).value)
  {
    if Valid(p) && Toggle(p, req, cap).Done? {
      TogglePreservesValid(p, req, cap);
    }
  }

  /** A run of clicks under one capacity, each handled on its own. */
  function Run(p: Pins, reqs: seq<Request>, cap: Cap): (r: Pins)
    ensures Valid(p) ==> Valid(r)
    decreases |reqs|
  {
    if |reqs| == 0 then p else Run(Handle(p, reqs[0], cap), reqs[1..], cap)
  }

  /** A click that throws does not stop the clicks after it, which see the same pins. */
  lemma CrashedClickIsSkipped(p: Pins, req: Request, rest: seq<Request>, cap: Cap)
    requires Toggle(p, req, cap).Crashed?
    ensures Run(p, [req] + rest, cap) == Run(p, rest, cap)
  {
    assert ([req] + rest)[1..] == rest;
  }

  /** Under a fixed capacity c >= 1, a run never holds more than c pins. */
  lemma {:induction false} RunKeepsBound(p: Pins, reqs: seq<Request>, c: int)
    requires c >= 1 && |p.buffer| <= c
    ensures |Run(p, reqs, AtMost(c)).buffer| <= c
    decreases |reqs|
  {
    if |reqs| > 0 {
      if Toggle(p, reqs[0], AtMost(c)).Done? {
        ToggleKeepsBound(p, reqs[0], c);
      }
      RunKeepsBound(Handle(p, reqs[0], AtMost(c)), reqs[1..], c);
    }
  }

  /** The cities of a run of requests. */
  function Cities(reqs: seq<Request>): seq<City>
  {
    seq(|reqs|, i requires 0 <= i < |reqs| => reqs[i].city)
  }

  /** Every request carries a row, and the names are new and pairwise distinct. */
  ghost predicate FreshPins(p: Pins, reqs: seq<Request>)
  {
    && (forall i :: 0 <= i < |reqs| ==> reqs[i].hasRow && reqs[i].city.name !in Names(p.buffer))
    && (forall i, j :: 0 <= i < j < |reqs| ==> reqs[i].city.name != reqs[j].city.name)
  }

  /** Pinning new distinct cities while there is room appends them in order. */
  lemma {:induction false} FillUp(p: Pins, reqs: seq<Request>, c: int)
    requires Valid(p) && FreshPins(p, reqs) && |p.buffer| + |reqs| <= c
    ensures Run(p, reqs, AtMost(c)) == Pins(p.buffer + Cities(reqs), Names(p.buffer + Cities(reqs)))
    decreases |reqs|
  {
    if |reqs| == 0 {
      assert p.buffer + Cities(reqs) == p.buffer;
    } else {
      TogglePinsBelowCap(p, reqs[0], AtMost(c));
      var q := Toggle(p, reqs[0], AtMost(c)).value;
      assert Run(p, reqs, AtMost(c)) == Run(q, reqs[1..], AtMost(c));
      FreshAfterPin(p, reqs);
      FillUp(q, reqs[1..], c);
      assert q.buffer + Cities(reqs[1..]) == p.buffer + Cities(reqs);
    }
  }

  lemma FreshAfterPin(p: Pins, reqs: seq<Request>)
    requires FreshPins(p, reqs) && |reqs| > 0
    ensures FreshPins(Pins(p.buffer + [reqs[0].city], p.marked + {reqs[0].city.name}), reqs[1..])
  {
    NamesOfAppend(p.buffer, reqs[0].city);
    forall i | 0 <= i < |reqs[1..]| ensures reqs[1..][i].city.name !in Names(p.buffer + [reqs[0].city]) {
      assert reqs[1..][i] == reqs[i + 1];
    }
  }

  lemma FreshCitiesAreDistinct(reqs: seq<Request>)
    requires FreshPins(NoPins, reqs)
    ensures DistinctNames(Cities(reqs))
  {
    var cs := Cities(reqs);
    forall i, j | 0 <= i < j < |cs| ensures cs[i].name != cs[j].name {
      assert cs[i] == reqs[i].city && cs[j] == reqs[j].city;
    }
  }

  lemma FreshPrefix(reqs: seq<Request>, c: nat)
    requires FreshPins(NoPins, reqs) && c < |reqs|
    ensures FreshPins(NoPins, reqs[..c])
    ensures reqs[c].city.name !in Names(Cities(reqs[..c]))
    ensures c > 0 && |reqs| == c + 1 ==> Cities(reqs)[1..] == Cities(reqs[..c])[1..] + [reqs[c].city]
  {
    var cs := Cities(reqs[..c]);
    if c > 0 && |reqs| == c + 1 {
      var l, r := Cities(reqs)[1..], cs[1..] + [reqs[c].city];
      assert |l| == |r|;
      forall i | 0 <= i < |l| ensures l[i] == r[i] {
        if i < c - 1 { assert l[i] == reqs[i + 1].city == cs[i + 1]; }
      }
    }
    forall i | 0 <= i < |cs| ensures cs[i].name != reqs[c].city.name {
      assert cs[i] == reqs[i].city;
    }
  }

  /** With capacity c >= 1, pinning c + 1 distinct cities into an empty
      buffer evicts exactly the earliest one. */
  lemma {:induction false} OverflowEvictsEarliest(reqs: seq<Request>, c: int)
    requires c >= 1 && |reqs| == c + 1 && FreshPins(NoPins, reqs)
    ensures Run(NoPins, reqs, AtMost(c)) == Pins(Cities(reqs)[1..], Names(Cities(reqs)[1..]))
    ensures reqs[0].city.name !in Run(NoPins, reqs, AtMost(c)).marked
  {
    var init, last := reqs[..c], reqs[c];
    FreshPrefix(reqs, c);
    FillUp(NoPins, init, c);
    var p := Pins(Cities(init), Names(Cities(init)));
    assert NoPins.buffer + Cities(init) == Cities(init);
    assert Run(NoPins, init, AtMost(c)) == p;
    RunSplits(NoPins, init, last, AtMost(c));
    assert reqs == init + [last];
    FreshCitiesAreDistinct(init);
    ToggleEvictsOldest(p, last, AtMost(c));
    var q := Toggle(p, last, AtMost(c)).value;
    assert Run(NoPins, reqs, AtMost(c)) == Handle(p, last, AtMost(c)) == q;
    assert p.buffer[0] == reqs[0].city;
    assert q.buffer == p.buffer[1..] + [last.city] == Cities(reqs)[1..];
    NamesOfTail(p.buffer);
    NamesOfAppend(p.buffer[1..], last.city);
  }

  /** A run is its first part followed by one more toggle. */
  lemma {:induction false} RunSplits(p: Pins, reqs: seq<Request>, last: Request, cap: Cap)
    ensures Run(p, reqs + [last], cap) == Handle(Run(p, reqs, cap), last, cap)
    decreases |reqs|
  {
    if |reqs| == 0 {
      assert reqs + [last] == [last];
    } else {
      assert (reqs + [last])[1..] == reqs[1..] + [last];
      RunSplits(Handle(p, reqs[0], cap), reqs[1..], last, cap);
    }
  }

  // Chart series

  datatype Rgb = Rgb(red: nat, green: nat, blue: nat)

  /** The six colours `getRadarColor` cycles through. */
  const Palette: seq<Rgb> :=
    [Rgb(255, 99, 132), Rgb(54, 162, 235), Rgb(255, 206, 86),
     Rgb(75, 192, 192), Rgb(153, 102, 255), Rgb(255, 159, 64)]

  datatype Colour = Rgba(rgb: Rgb, alpha: real)

  /** `getRadarColor(index, alpha)` */
  function RadarColor(index: nat, alpha: real): Colour
  {
    Rgba(Palette[index % |Palette|], alpha)
  }

  /** The colour of a series repeats every six positions and differs within six. */
  lemma PaletteCycles(i: nat, j: nat, alpha: real)
    ensures RadarColor(i + |Palette|, alpha) == RadarColor(i, alpha)
    ensures i < j < i + |Palette| ==> RadarColor(i, alpha) != RadarColor(j, alpha)
  {
    assert (i + 6) % 6 == i % 6;
    if i < j < i + 6 {
      assert i % 6 != j % 6;
    }
  }

  /** One radar series: name, the ten raw metrics (absent stays absent), colours. */
  datatype Dataset = Dataset(city: string, data: seq<Option<real>>, border: Colour, background: Colour, point: Colour)

  /** `createDataset(city, index)` */
  function CreateDataset(c: City, index: nat): Dataset
  {
    Dataset(c.name,
      seq(|RadarMetrics|, j requires 0 <= j < |RadarMetrics| => Raw(c, RadarMetrics[j])),
      RadarColor(index, 1.0), RadarColor(index, 0.2), RadarColor(index, 1.0))
  }

  /** `radarBuffer.map((city, i) => createDataset(city, i))`: one series per
      pinned city, in pin order, coloured by position, carrying its metrics in Keys order. */
  function Datasets(buf: seq<City>): (ds: seq<Dataset>)
    ensures |ds| == |buf|
    ensures forall i :: 0 <= i < |buf| ==>
      && ds[i].city == buf[i].name
      && ds[i].border == Rgba(Palette[i % 6], 1.0)
      && ds[i].background == Rgba(Palette[i % 6], 0.2)
      && ds[i].point == Rgba(Palette[i % 6], 1.0)
      && |ds[i].data| == |Keys|
      && forall j :: 0 <= j < |Keys| ==> ds[i].data[j] == Raw(buf[i], Keys[j])
  {
    RadarMetricsAreKeys();
    seq(|buf|, i requires 0 <= i < |buf| => CreateDataset(buf[i], i))
  }

  // Toggle with redraw

  /** The pins together with the series the chart shows. */
  datatype Screen = Screen(pins: Pins, chart: seq<Dataset>)

  const InitialScreen: Screen := Screen(NoPins, [])

  /** The chart shows one series per pinned city, in pin order. */
  ghost predicate InSync(s: Screen)
  {
    Valid(s.pins) && s.chart == Datasets(s.pins.buffer)
  }

  /** `window.toggleRadar(city)`: toggle, then rebuild the series from the
      buffer; a city without a row returns before the redraw. */
  function ToggleRadar(s: Screen, req: Request, cap: Cap): Outcome<Screen>
  {
    if !req.hasRow then Done(s)
    else
      match Toggle(s.pins, req, cap)
      case Crashed => Crashed
      case Done(q) => Done(Screen(q, Datasets(q.buffer)))
  }

  /** The initial screen is in sync, and every completed toggle keeps it so. */
  lemma ToggleRadarKeepsSync(s: Screen, req: Request, cap: Cap)
    requires InSync(s) && ToggleRadar(s, req, cap).Done?
    ensures InSync(ToggleRadar(s, req, cap).value)
    ensures InSync(InitialScreen)
  {
    assert Names([]) == {};
    if req.hasRow {
      TogglePreservesValid(s.pins, req, cap);
    }
  }
}

=== FILE: sort_control.dfy ===
/** The sort state of the dashboard and its header-click transition. */
module SortControl {
  import opened Wrappers
  import opened Metrics

  /** What the view is sorted by: the composite index or one metric. */
  datatype SortKey = IndexKey | MetricKey(k: Key)

  datatype Direction = Asc | Desc

  /** `currentSort` */
  datatype SortState = SortState(key: SortKey, dir: Direction)

  /** The state before any click: index, descending. */
  const Initial: SortState := SortState(IndexKey, Desc)

  /** The other direction. */
  function Flip(d: Direction): (e: Direction)
    ensures e != d
  {
    if d == Desc then Asc else Desc
  }

  /** A click on header column `col`. Columns without a metric key get no
      handler. Clicking the active key toggles the direction; any other
      metric becomes the key, descending. */
  function Click(s: SortState, col: int): (t: SortState)
    ensures ColKey(col).None? ==> t == s
    ensures ColKey(col).Some? ==> t.key == MetricKey(Keys[col - 2])
    ensures ColKey(col).Some? && s.key != t.key ==> t.dir == Desc
    ensures ColKey(col).Some? && s.key == t.key ==> t.dir != s.dir
  {
    match ColKey(col)
    case None => s
    case Some(k) =>
      if s.key == MetricKey(k) then SortState(s.key, Flip(s.dir))
      else SortState(MetricKey(k), Desc)
  }

  /** Two clicks on the active column restore the state. */
  lemma ClickActiveTwiceRestores(s: SortState, col: int)
    requires ColKey(col).Some? && s.key == MetricKey(ColKey(col).value)
    ensures Click(Click(s, col), col) == s
  {
  }

  /** Two clicks on an inactive metric column leave it active and ascending. */
  lemma ClickOtherTwiceIsAscending(s: SortState, col: int)
    requires ColKey(col).Some? && s.key != MetricKey(ColKey(col).value)
    ensures Click(s, col) == SortState(MetricKey(ColKey(col).value), Desc)
    ensures Click(Click(s, col), col) == SortState(MetricKey(ColKey(col).value), Asc)
  {
  }

  /** The state after a run of clicks, in order. */
  function Clicks(s: SortState, cols: seq<int>): SortState
    decreases |cols|
  {
    if |cols| == 0 then s else Clicks(Click(s, cols[0]), cols[1..])
  }

  /** The key is the index after a run of clicks exactly when it was the
      index before and no click hit a metric column; so once the key has
      left the index it never returns. */
  lemma {:induction false} IndexOnlyIfNeverLeft(s: SortState, cols: seq<int>)
    ensures Clicks(s, cols).key == IndexKey <==>
      s.key == IndexKey && forall c :: c in cols ==> ColKey(c).None?
    decreases |cols|
  {
    if |cols| > 0 {
      IndexOnlyIfNeverLeft(Click(s, cols[0]), cols[1..]);
      assert forall c :: c in cols <==> c == cols[0] || c in cols[1..];
    }
  }

  /** From the initial state, a state sorted by the index is the initial state. */
  lemma {:induction false} IndexStateIsInitial(cols: seq<int>)
    ensures Clicks(Initial, cols).key == IndexKey ==> Clicks(Initial, cols) == Initial
  {
    IndexOnlyIfNeverLeft(Initial, cols);
    if Clicks(Initial, cols).key == IndexKey {
      UnmappedClicksChangeNothing(Initial, cols);
    }
  }

  lemma {:induction false} UnmappedClicksChangeNothing(s: SortState, cols: seq<int>)
    requires forall c :: c in cols ==> ColKey(c).None?
    ensures Clicks(s, cols) == s
    decreases |cols|
  {
    if |cols| > 0 {
      assert cols[0] in cols;
      UnmappedClicksChangeNothing(s, cols[1..]);
    }
  }
}

=== FILE: views.dfy ===
/** What `updateCharts` draws from the sorted entries: the table rows, the
    bar series (top n) and the radar series (top m, hues spread over the
    colour wheel). Chart objects and DOM nodes are reduced to the data they carry. */
module Views {
  import opened Wrappers
  import opened Metrics
  import opened Enrichment
  import opened SortControl
  import opened Ordering

  /** `columnLabelMap[key]`: metric labels plus "Unified Index". */
  function ColumnLabel(key: SortKey): (s: string)
    ensures key == IndexKey ==> s == "Unified Index"
    ensures key.MetricKey? ==> s == Labels[KeyIndex(key.k)]
  {
    match key
    case IndexKey => "Unified Index"
    case MetricKey(k) => Label(k)
  }

  function Min(a: int, b: int): int { if a <= b then a else b }

  /** End of `s.slice(0, n)` for an integer n: n is clamped to the length,
      and a negative n counts back from the end. */
  function SliceEnd(len: nat, n: int): (e: nat)
    ensures e <= len
    ensures n >= 0 ==> e == Min(n, len)
    ensures n < 0 ==> e + Min(-n, len) == len
  {
    if n < 0 then (if len + n < 0 then 0 else len + n)
    else if n < len then n else len
  }

  /** `Math.round(x)`: the nearest integer, halves rounded up. */
  function Round(x: real): (n: int)
    ensures x - 0.5 < n as real <= x + 0.5
  {
    (x + 0.5).Floor
  }

  /** Rounding to the nearest integer with halves away from zero (the digit
      rule of `Number.prototype.toFixed`). */
  function RoundHalfAway(y: real): (n: int)
    ensures y >= 0.0 ==> n >= 0 && y - 0.5 < n as real <= y + 0.5
    ensures y < 0.0 ==> n <= 0 && y - 0.5 <= n as real < y + 0.5
  {
    if y < 0.0 then -Round(-y) else Round(y)
  }

  /** `+x.toFixed(0)` on an exact real: the nearest integer, halves away from zero. */
  function ToFixed0(x: real): real
  {
    RoundHalfAway(x) as real
  }

  /** `+x.toFixed(1)` on an exact real: the nearest tenth, halves away from zero. */
  function ToFixed1(x: real): real
  {
    RoundHalfAway(x * 10.0) as real / 10.0
  }

  /** toFixed moves a value by at most half a unit in the last digit kept,
      and keeps non-negative values non-negative. */
  lemma ToFixedError(x: real)
    ensures -0.5 <= ToFixed0(x) - x <= 0.5
    ensures -0.05 <= ToFixed1(x) - x <= 0.05
    ensures x >= 0.0 ==> ToFixed0(x) >= 0.0 && ToFixed1(x) >= 0.0
  {
  }

  lemma RoundHalfAwayIsOdd(y: real)
    ensures RoundHalfAway(-y) == -RoundHalfAway(y)
  {
  }

  /** toFixed is symmetric about 0. */
  lemma ToFixedIsOdd(x: real)
    ensures ToFixed0(-x) == -ToFixed0(x)
    ensures ToFixed1(-x) == -ToFixed1(x)
  {
    RoundHalfAwayIsOdd(x);
    RoundHalfAwayIsOdd(x * 10.0);
    assert (-x) * 10.0 == -(x * 10.0);
  }

  lemma RoundIsMonotone(x: real, y: real)
    requires x <= y
    ensures Round(x) <= Round(y)
  {
  }

  lemma RoundHalfAwayIsMonotone(x: real, y: real)
    requires x <= y
    ensures RoundHalfAway(x) <= RoundHalfAway(y)
  {
    if x < 0.0 && y < 0.0 {
      RoundIsMonotone(-y, -x);
    } else if x >= 0.0 {
      RoundIsMonotone(x, y);
    }
  }

  /** toFixed never reverses an order. */
  lemma ToFixedIsMonotone(x: real, y: real)
    requires x <= y
    ensures ToFixed0(x) <= ToFixed0(y)
    ensures ToFixed1(x) <= ToFixed1(y)
  {
    RoundHalfAwayIsMonotone(x, y);
    RoundHalfAwayIsMonotone(x * 10.0, y * 10.0);
  }

  /** Rounding a value in [0, 100] to whole numbers stays in [0, 100]. */
  lemma ToFixedZeroInRange(x: real)
    requires 0.0 <= x <= 100.0
    ensures 0.0 <= ToFixed0(x) <= 100.0
  {
  }

  /** `+score.toFixed(0)` or `+score.toFixed(1)`; NaN stays NaN. */
  function RoundScore(s: Score, tenths: bool): Score
  {
    match s
    case Finite(v) => Finite(if tenths then ToFixed1(v) else ToFixed0(v))
    case NonFinite => NonFinite
  }

  // Bar chart

  datatype BarChart = BarChart(title: string, labels: seq<string>, values: seq<Score>)

  /** A bar's height: the index to one decimal, or `raw[key]||0`. */
  function BarValue(st: SortState, e: Entry): Score
  {
    match st.key
    case IndexKey => RoundScore(e.index, true)
    case MetricKey(k) => Finite(OrZero(e.raw, k))
  }

  /** The bar series over `sorted.slice(0, n)`: one bar per kept entry, labels
      and values aligned, titled with the active key's label. */
  function Bar(st: SortState, sorted: seq<Entry>, n: int): (b: BarChart)
    ensures b.title == ColumnLabel(st.key)
    ensures |b.labels| <= |sorted| && |b.values| == |b.labels|
    ensures n >= 0 ==> |b.labels| == Min(n, |sorted|)
    ensures n < 0 ==> |b.labels| + Min(-n, |sorted|) == |sorted|
    ensures forall i :: 0 <= i < |b.labels| ==>
      b.labels[i] == sorted[i].city && b.values[i] == BarValue(st, sorted[i])
  {
    var top := sorted[..SliceEnd(|sorted|, n)];
    BarChart(ColumnLabel(st.key),
      seq(|top|, i requires 0 <= i < |top| => top[i].city),
      seq(|top|, i requires 0 <= i < |top| => BarValue(st, top[i])))
  }

  // Radar chart

  /** One radar series: city name, ten rounded scores, hue in degrees. */
  datatype Series = Series(city: string, data: seq<Score>, hue: int)

  /** `Math.round(i * 360 / m)` */
  function Hue(i: nat, m: int): int
    requires m != 0
  {
    Round(i as real * 360.0 / m as real)
  }

  /** The radar series over `sorted.slice(0, m)`. */
  function Radar(sorted: seq<Entry>, m: int): (ds: seq<Series>)
    ensures |ds| == SliceEnd(|sorted|, m)
    ensures |ds| > 0 ==> m != 0
    ensures forall i :: 0 <= i < |ds| ==>
      m != 0 && ds[i].city == sorted[i].city && ds[i].hue == Hue(i, m) &&
      |ds[i].data| == |sorted[i].norm| &&
      forall j :: 0 <= j < |sorted[i].norm| ==> ds[i].data[j] == RoundScore(sorted[i].norm[j], false)
  {
    var top := sorted[..SliceEnd(|sorted|, m)];
    seq(|top|, i requires 0 <= i < |top| =>
      Series(top[i].city,
        seq(|top[i].norm|, j requires 0 <= j < |top[i].norm| => RoundScore(top[i].norm[j], false)),
        Hue(i, m)))
  }

  lemma ScaleIsMonotone(x: real, y: real, q: real)
    requires x <= y && q > 0.0
    ensures x * q <= y * q
  {
  }

  /** i * 360 / m, for i < m, lies in [0, 360 - 360/m]. */
  lemma HueAngleBound(a: real, b: real)
    requires 0.0 <= a && a + 1.0 <= b
    ensures 0.0 <= a * 360.0 / b <= 360.0 - 360.0 / b
  {
    var q := 360.0 / b;
    assert a * 360.0 / b == a * q;
    ScaleIsMonotone(a, b - 1.0, q);
    assert (b - 1.0) * q == b * q - q;
    assert b * q == 360.0;
  }

  /** For the i-th of m series the hue lies in [0, 360]; it reaches 360, the
      colour of hue 0, only when m >= 720. */
  lemma HueRange(i: nat, m: int)
    requires i < m
    ensures 0 <= Hue(i, m) <= 360
    ensures m < 720 ==> Hue(i, m) < 360
  {
    HueAngleBound(i as real, m as real);
    if m < 720 {
      assert 360.0 / m as real > 0.5 by {
        assert (360.0 / m as real) * m as real == 360.0;
        assert m as real < 720.0;
      }
    }
  }

  /** A quotient of at least c means the numerator is at least c times the divisor. */
  lemma QuotientLowerBound(y: real, d: real, c: real)
    requires d > 0.0 && y / d >= c
    ensures y >= c * d
  {
    assert y == (y / d) * d;
    ScaleIsMonotone(c, y / d, d);
  }

  /** Hue 360 is reached only from series 719 on, so only when at least 720
      series are shown. */
  lemma HueReaches360Late(i: nat, m: int)
    requires i < m
    ensures Hue(i, m) == 360 ==> i >= 719 && m >= 720
  {
    if Hue(i, m) == 360 {
      QuotientLowerBound(i as real * 360.0, m as real, 359.5);
    }
  }


  /** With 720 series the last one gets hue 360, the same colour as the first. */
  lemma HueWrapsAt720()
    ensures Hue(719, 720) == 360 && Hue(0, 720) == 0
  {
    assert 719.0 * 360.0 / 720.0 == 359.5;
  }

  /** Up to 360 series, hues strictly increase, so no two series share one. */
  lemma HuesDistinct(i: nat, j: nat, m: int)
    requires i < j < m <= 360
    ensures Hue(i, m) < Hue(j, m)
  {
    var step := 360.0 / m as real;
    assert step >= 1.0 by {
      assert step * m as real == 360.0;
    }
    assert i as real * 360.0 / m as real == i as real * step;
    assert j as real * 360.0 / m as real == j as real * step;
    assert j as real * step >= i as real * step + step by {
      assert (j - i) as real >= 1.0;
      assert (j - i) as real * step >= step;
    }
  }

  // Table

  /** A table cell: empty, a number (with locale grouping or not), or text. */
  datatype Cell = Blank | Number(v: real, grouped: bool) | Text(s: string)

  /** `make(v, loc)` on a metric: null and undefined render empty; 0 does not. */
  function MakeNumber(v: Option<real>, grouped: bool): (c: Cell)
    ensures c == Blank <==> v.None?
    ensures v.Some? ==> c == Number(v.value, grouped)
  {
    if v.Some? then Number(v.value, grouped) else Blank
  }

  /** `make(v)` on a text field. */
  function MakeText(v: Option<string>): (c: Cell)
    ensures c == Blank <==> v.None?
    ensures v.Some? ==> c == Text(v.value)
  {
    if v.Some? then Text(v.value) else Blank
  }

  /** Population and bank are printed with thousands separators. */
  function Grouped(k: Key): bool
  {
    k == Pop || k == Bank
  }

  /** One table row: rank, city, ten metric cells in Keys order, rationale, stakeholder. */
  datatype Row = Row(rank: nat, city: string, cells: seq<Cell>)

  function MakeRow(i: nat, e: Entry): Row
  {
    Row(i + 1, e.city,
      seq(|Keys|, j requires 0 <= j < |Keys| => MakeNumber(Raw(e.raw, Keys[j]), Grouped(Keys[j])))
      + [MakeText(e.raw.why), MakeText(e.raw.who)])
  }

  /** `updateTable`: one row per sorted entry, ranked from 1. */
  function Table(sorted: seq<Entry>): (rows: seq<Row>)
    ensures |rows| == |sorted|
    ensures forall i :: 0 <= i < |rows| ==>
      rows[i].rank == i + 1 && rows[i].city == sorted[i].city && |rows[i].cells| == |Keys| + 2
    ensures forall i, j :: 0 <= i < |rows| && 0 <= j < |Keys| ==>
      (rows[i].cells[j] == Blank <==> Keys[j] !in sorted[i].raw.metrics)
    ensures forall i, j :: 0 <= i < |rows| && 0 <= j < |Keys| && Keys[j] in sorted[i].raw.metrics ==>
      rows[i].cells[j] == Number(sorted[i].raw.metrics[Keys[j]], Grouped(Keys[j]))
    ensures forall i :: 0 <= i < |rows| ==>
      rows[i].cells[|Keys|] == MakeText(sorted[i].raw.why) &&
      rows[i].cells[|Keys| + 1] == MakeText(sorted[i].raw.who)
  {
    seq(|sorted|, i requires 0 <= i < |sorted| => MakeRow(i, sorted[i]))
  }

  /** A metric stored as 0 renders as 0, not as an empty cell. */
  lemma ZeroIsShown(sorted: seq<Entry>, i: int, j: int)
    requires 0 <= i < |sorted| && 0 <= j < |Keys|
    requires Keys[j] in sorted[i].raw.metrics && sorted[i].raw.metrics[Keys[j]] == 0.0
    ensures Table(sorted)[i].cells[j] == Number(0.0, Grouped(Keys[j]))
  {
  }

  // Whole render

  /** Everything `updateCharts` draws. */
  datatype Dashboard = Dashboard(rows: seq<Row>, bar: BarChart, radar: seq<Series>)

  /** `updateCharts`: sort, then derive the table, the top-n bars and the top-m radar series. */
  function UpdateCharts(st: SortState, enriched: seq<Entry>, n: int, m: int): (v: Dashboard)
    ensures |v.rows| == |enriched|
    ensures |v.bar.labels| <= |v.rows| && |v.radar| <= |v.rows|
    ensures forall i :: 0 <= i < |v.bar.labels| ==> v.bar.labels[i] == v.rows[i].city
    ensures forall i :: 0 <= i < |v.radar| ==> v.radar[i].city == v.rows[i].city
    ensures |v.bar.labels| == SliceEnd(|enriched|, n) && |v.radar| == SliceEnd(|enriched|, m)
    ensures forall i :: 0 <= i < |v.rows| ==>
      v.rows[i].rank == i + 1 && v.rows[i].city == Sort(st, enriched)[i].city
  {
    var sorted := Sort(st, enriched);
    Dashboard(Table(sorted), Bar(st, sorted, n), Radar(sorted, m))
  }

  /** Sorted by a metric descending, the first bar is the largest
      `raw[k]||0` of the whole dataset, and the bars do not increase. */
  lemma MetricBarsDescend(k: Key, enriched: seq<Entry>, n: int, m: int)
    requires n > 0 && |enriched| > 0
    ensures var b := UpdateCharts(SortState(MetricKey(k), Desc), enriched, n, m).bar;
      && (forall e :: e in enriched ==> b.values[0].Finite? && OrZero(e.raw, k) <= b.values[0].v)
      && (forall i, j :: 0 <= i < j < |b.values| ==>
            b.values[i].Finite? && b.values[j].Finite? && b.values[i].v >= b.values[j].v)
  {
    var st := SortState(MetricKey(k), Desc);
    var sorted := Sort(st, enriched);
    MetricSortDescending(k, enriched);
    var b := UpdateCharts(st, enriched, n, m).bar;
    assert b == Bar(st, sorted, n);
    MetricBarsFollowOrder(st, k, sorted, n);
    SortedHeadIsLargest(k, enriched);
  }

  /** Sorted by a metric descending, the first entry holds the largest `raw[k]||0`. */
  lemma SortedHeadIsLargest(k: Key, enriched: seq<Entry>)
    requires |enriched| > 0
    ensures forall e :: e in enriched ==>
      OrZero(e.raw, k) <= OrZero(Sort(SortState(MetricKey(k), Desc), enriched)[0].raw, k)
  {
    var sorted := Sort(SortState(MetricKey(k), Desc), enriched);
    MetricSortDescending(k, enriched);
    forall e | e in enriched ensures OrZero(e.raw, k) <= OrZero(sorted[0].raw, k) {
      assert e in multiset(sorted);
      var i :| 0 <= i < |sorted| && sorted[i] == e;
    }
  }

  /** Metric bars carry `raw[k]||0` of the kept entries, so they descend when those do. */
  lemma MetricBarsFollowOrder(st: SortState, k: Key, sorted: seq<Entry>, n: int)
    requires st.key == MetricKey(k)
    requires forall i, j :: 0 <= i < j < |sorted| ==> OrZero(sorted[i].raw, k) >= OrZero(sorted[j].raw, k)
    ensures forall i :: 0 <= i < |Bar(st, sorted, n).values| ==>
      Bar(st, sorted, n).values[i] == Finite(OrZero(sorted[i].raw, k))
    ensures forall i, j :: 0 <= i < j < |Bar(st, sorted, n).values| ==>
      Bar(st, sorted, n).values[i].Finite? && Bar(st, sorted, n).values[j].Finite? &&
      Bar(st, sorted, n).values[i].v >= Bar(st, sorted, n).values[j].v
  {
  }

  /** Sorted by index (finite), the one-decimal bars do not increase, whatever the direction. */
  lemma IndexBarsDescend(d: Direction, enriched: seq<Entry>, n: int, m: int)
    requires forall i :: 0 <= i < |enriched| ==> enriched[i].index.Finite?
    ensures var b := UpdateCharts(SortState(IndexKey, d), enriched, n, m).bar;
      forall i, j :: 0 <= i < j < |b.values| ==>
        b.values[i].Finite? && b.values[j].Finite? && b.values[i].v >= b.values[j].v
  {
    var st := SortState(IndexKey, d);
    var sorted := Sort(st, enriched);
    IndexSortIsDescending(d, enriched);
    var b := UpdateCharts(st, enriched, n, m).bar;
    assert b == Bar(st, sorted, n);
    forall i, j | 0 <= i < j < |b.values|
      ensures b.values[i].Finite? && b.values[j].Finite? && b.values[i].v >= b.values[j].v
    {
      assert sorted[i].index.Finite? && sorted[j].index.Finite?;
      ToFixedIsMonotone(sorted[j].index.v, sorted[i].index.v);
    }
  }

  /** All ten scaled values of an entry are finite and in [0, 100]. */
  ghost predicate ScoresBounded(e: Entry)
  {
    |e.norm| == |Keys| && forall j :: 0 <= j < |Keys| ==> e.norm[j].Finite? && 0.0 <= e.norm[j].v <= 100.0
  }

  /** With non-negative data and no all-zero column every enriched record,
      in whatever order, has its scaled values in [0, 100]. */
  lemma SortedScoresBounded(data: seq<City>, st: SortState)
    requires NonNegative(data) && |data| > 0 && AllMaximaNonZero(data)
    ensures forall e :: e in Sort(st, Enrich(data)) ==> ScoresBounded(e)
  {
    var enriched := Enrich(data);
    forall i | 0 <= i < |data| ensures ScoresBounded(enriched[i]) {
      ScoresInRange(data, i);
    }
    forall e | e in Sort(st, enriched) ensures ScoresBounded(e) {
      assert e in multiset(enriched);
    }
  }

  /** When every entry's scaled values lie in [0, 100], so does every
      rounded value the radar chart plots. */
  lemma RadarDataInRange(sorted: seq<Entry>, m: int)
    requires forall e :: e in sorted ==> ScoresBounded(e)
    ensures forall i, j :: 0 <= i < |Radar(sorted, m)| && 0 <= j < |Radar(sorted, m)[i].data| ==>
      Radar(sorted, m)[i].data[j].Finite? && 0.0 <= Radar(sorted, m)[i].data[j].v <= 100.0
  {
    var ds := Radar(sorted, m);
    forall i, j | 0 <= i < |ds| && 0 <= j < |ds[i].data|
      ensures ds[i].data[j].Finite? && 0.0 <= ds[i].data[j].v <= 100.0
    {
      assert sorted[i] in sorted;
      ToFixedZeroInRange(sorted[i].norm[j].v);
    }
  }
}

=== FILE: wrappers.dfy ===
/** The optional value used wherever the dashboard reads a field that may be
    null or undefined. */
module Wrappers {

  datatype Option<+T> = None | Some(value: T)

}
